=== FILE: README.md ===
# GEES2Downloader tiling and assembly, modelled in Dafny

GEES2Downloader downloads a band of an Earth Engine image that is too large for one export request.
It estimates the band's byte size, cuts the band's `H x W` pixel grid into tiles that fit a
per-request quota, downloads every tile on a thread pool while polling for progress, and writes
each tile's pixel block into a zero-initialised `int16` matrix of the band's shape.

This project models the integer core of that pipeline:

- `Tiles`: the `Tile` record, a pair of half-open slices, with its `shape`, `size` and
  `__repr__`. It also reads the text form back.
- `Tiling`: `_estimate_band_size` and `_create_tiles`, including the row-major sweep written
  as the source's nested loops.
- `Progress`: `_workers_done` and the tile-level polling loop of `_download_band`. The loop
  works on the sequence of done-counts it observes.
- `Assembly`: the zero matrix, the write of each worker's block at its tile's slices,
  `_download_band` as a whole and `download`.
- `Geometry`: `create_geometry` (point, pass-through, ring closing, validity check) and the
  corner ring of `Tile.polygon`.
- `Streaming`: the chunk loop and progress top-up of `open_url`, and `open_zip_url`.
- `Decimal`, `Wrappers`, `Errors`: integer formatting, `Option`/`Result`, and the
  exceptions the source raises.

The tiling steps `int(rescale_factor * dimension)` come from floating-point arithmetic.
They are parameters here, and the sweep needs them to be at least 1. The code has no clamp:
a step of 0 makes the sweep loop forever. `_download_band` reaches that case. With the default
budget of 33554432 bytes a band of `4 * H * W` bytes gets `step_y = 0` whenever `W > 8388608 * H`.
For example, a `1 x 8388609` band gives `step_y = int(sqrt(33554432 / 33554436) * 1) = 0`, and the
outer loop of `_create_tiles` then appends tiles without end. The symmetric case
`H > 8388608 * W` gives `step_x = 0`. The model requires both steps to be at least 1.

The test `rescale_factor > 1` is `sqrt(max_size / size) > 1`. The model decides it exactly, as
`max_size > size`.

Some behaviour of the code is easy to misread:

- The byte bar of a tile advances by 1024 per non-empty chunk, whatever the chunk's length.
- `Tile.size` is `int(h * w * 1.3)`, a different estimate from the band's `h * w * 2 * excess_factor`.
- `worker.result()` re-raises a failed tile's exception, so the whole band fails at the first
  failing tile in tile order. There is no degraded result.
- The band is assembled only after every worker is done.
- `download` accepts a `scale` argument but never reads it, so the model has no such parameter.
- `_download_band` always tiles with the default budget of `_create_tiles`, 32 MiB.
- `download` of a band the image lacks only logs an error and returns; `array` keeps whatever
  it held before (`None` for a fresh downloader).

The tile-level polling only drives the progress display. The assembled matrix does not depend
on it, so `DownloadBand` is stated without it and `Progress` models the loop on its own.

Earth Engine calls, HTTP, zip and raster decoding are parameters:

- The band's existence and metadata.
- A tile's `fetch` result.
- The chunk stream of a response.
- The archive's member list.
- The geometry validity predicate.
- The pixel-to-geographic transform.

## Model

| member | source | states |
|---|---|---|
| Tiles.Size | src/geeS2downloader/gee.py:29-31 | a tile's byte estimate is 13/10 of its pixel count rounded toward zero, so it is never below the pixel count of a non-empty tile |
| Tiles.ReprRoundTrip | src/geeS2downloader/gee.py:86-89 | the text "Tile[ys:ye,xs:xe]" names all four slice bounds: parsing it gives back the tile |
| Tiles.ReprInjective | src/geeS2downloader/gee.py:86-89 | two different tiles never print the same text |
| Decimal.ParseIntToString | src/geeS2downloader/gee.py:87-88 | the decimal form of each bound, minus sign included, reads back to the same integer |
| Tiling.EstimateBandSize | src/geeS2downloader/gee.py:111-121 | missing metadata gives NotInitialized and a non-positive value range gives the `log2` domain error; otherwise the estimate is `H * W * 2 * excess_factor` |
| Tiling.EstimateVersusBitDepth | src/geeS2downloader/gee.py:116-121 | the fixed two bytes per pixel covers the data type's real byte width exactly when its value range fits in 16 bits |
| Tiling.EstimateIgnoresRange | src/geeS2downloader/gee.py:116-121 | two bands with the same dimensions get the same estimate whatever their data-type ranges |
| Tiling.CreateTiles | src/geeS2downloader/gee.py:123-156 | fails exactly when metadata is missing, the range is non-positive, or a dimension is 0 (division by a zero size). A band that fits gets one tile covering the grid. Otherwise there are `ceil(H/step_y) * ceil(W/step_x)` well-clipped tiles that cover every pixel exactly once, in row-major order |
| Tiling.SweepLoop | src/geeS2downloader/gee.py:144-156 | the outer `while` loop emits exactly the sweep's tiles, which partition the grid with the expected count and clipping |
| Tiling.RowLoop | src/geeS2downloader/gee.py:147-152 | the inner `while` loop emits the tiles of one row start, left to right |
| Tiling.SweepIsTiling | src/geeS2downloader/gee.py:144-156 | with steps of at least 1, every tile is non-empty and inside the grid, every pixel lies in exactly one tile, and tiles come in row-major order |
| Tiling.SweepCoverage | src/geeS2downloader/gee.py:146-154 | a pixel is covered once if it is inside the grid, and not at all otherwise |
| Tiling.SweepClipped | src/geeS2downloader/gee.py:149-150 | every tile is `step_y x step_x` except along the last row or column, where it stops at the grid edge. Row starts never decrease, and x-starts strictly increase within a row |
| Tiling.RowSweepAbuts | src/geeS2downloader/gee.py:147-152 | within one row each tile starts at the column where the previous one stopped and spans the same rows |
| Tiling.SweepCount | src/geeS2downloader/gee.py:146-154 | the sweep emits `ceil(H/step_y) * ceil(W/step_x)` tiles |
| Tiling.CreatedTileShapes | src/geeS2downloader/gee.py:21-23 | every created tile's `shape` has between 1 and H rows and between 1 and W columns, so its `size` is positive and at least its pixel count |
| Progress.WorkersDone | src/geeS2downloader/gee.py:158-163 | the loop returns the number of finished workers, which is between 0 and the number of workers |
| Progress.PollLoop | src/geeS2downloader/gee.py:188-194 | from a running total at most `n`, the loop ends with the total at `n`. The reported increments are positive and sum to the difference |
| Progress.PollAsWritten | src/geeS2downloader/gee.py:185-194 | the total never exceeds `n` and equals the sum of positive updates. It reaches `n` exactly when the first count is below `n` or there are no workers |
| Progress.PollAsWrittenMissesEarlyCompletion | src/geeS2downloader/gee.py:187-188 | a single tile finished before the first poll leaves the tile counter at 0 with no update |
| Progress.Poll | src/geeS2downloader/gee.py:185-194 | with the first count reported like the others, the total always ends at `n` and the updates sum to `n` |
| Progress.SnapshotsObservable | src/geeS2downloader/gee.py:185-189 | counting done workers over snapshots that end with all done gives counts the loop can consume, and every worker is counted once in total |
| Assembly.ToInt16 | src/geeS2downloader/gee.py:200 | a value stored by the slice assignment into the int16 matrix (created at line 167) lands in [-32768, 32767], congruent to it modulo 2^16, unchanged when already in range |
| Assembly.Zeros | src/geeS2downloader/gee.py:167 | the initial matrix has shape `(H, W)` and is zero everywhere |
| Assembly.WriteBlocksCommute | src/geeS2downloader/gee.py:199-200 | storing the blocks of two tiles with no pixel in common gives the same matrix in either order |
| Assembly.Assemble | src/geeS2downloader/gee.py:199-200 | succeeds exactly when every worker succeeded with a block of its tile's shape. Otherwise it fails with the first such error in tile order |
| Assembly.AssembleCells | src/geeS2downloader/gee.py:199-200 | an uncovered cell keeps its initial value. A cell covered by exactly one tile holds that tile's sample |
| Assembly.Submitted | src/geeS2downloader/gee.py:180-182 | the list built by appending one worker per tile has one worker per tile, and worker `k` yields tile `k`'s fetch |
| Assembly.SubmitLoop | src/geeS2downloader/gee.py:180-182 | the `for` loop over the tiles builds exactly that worker list, one worker per tile |
| Assembly.Zip | src/geeS2downloader/gee.py:199 | `zip` stops at the shorter sequence, and pair `k` holds element `k` of each |
| Assembly.Jobs | src/geeS2downloader/gee.py:180-199 | zipping the tiles with the submitted workers loses no tile, and every tile is paired with its own worker's result |
| Assembly.DownloadBand | src/geeS2downloader/gee.py:165-202 | with the default 32 MiB budget, tiling errors propagate. The band is assembled exactly when every tile's fetch succeeds with the tile's shape, and the result has the band's shape |
| Assembly.DownloadBandCells | src/geeS2downloader/gee.py:165-202 | every pixel lies in exactly one tile and holds that tile's fetched sample: no cell keeps the zero default or is written twice |
| Assembly.Download | src/geeS2downloader/gee.py:204-222 | a missing band logs "Image does not contain band ..." and leaves `array` as it was. For an existing band the call succeeds exactly when every tile is fetched with its shape, and `array` becomes an `(H, W)` matrix with nothing logged; otherwise it raises |
| Assembly.DownloadMissingBandFetchesNothing | src/geeS2downloader/gee.py:207-222 | for a missing band the outcome does not depend on the metadata, the steps or any tile download |
| Assembly.DownloadCells | src/geeS2downloader/gee.py:216 | after a successful download every pixel of `array` holds the int16 value of its one tile's fetched sample |
| Geometry.CloseRing | src/geeS2downloader/common.py:76-81 | the ring's first point equals its last. The points stay a prefix and at most one point is added, the first point, and only when the list was not closed |
| Geometry.CloseRingIdempotent | src/geeS2downloader/common.py:78-79 | closing an already closed ring changes nothing |
| Geometry.Construct | src/geeS2downloader/common.py:69-81 | a tuple becomes a Point, a Point or Polygon passes through, a list becomes a one-ring closed Polygon, and an empty list raises IndexError |
| Geometry.CreateGeometry | src/geeS2downloader/common.py:69-93 | returns exactly one of two things: the constructed geometry when `is_valid` holds, or `None` plus the error message to the logger (stdout when there is none) |
| Geometry.RowBoxesAbut | src/geeS2downloader/gee.py:37-49 | along a row of the sweep, each tile's bounding box starts at the transformed top-right pixel corner of the previous tile and ends on the same bottom row, for any transform |
| Geometry.TilePolygon | src/geeS2downloader/gee.py:75-79 | a tile's polygon ring runs top-left, top-right, bottom-right, bottom-left. It returns to top-left only when the corners differ in y |
| Streaming.ReadChunks | src/geeS2downloader/common.py:21-26 | the buffer grows by the in-order concatenation of the chunks. The bar advances 1024 per non-empty chunk |
| Streaming.TopUp | src/geeS2downloader/common.py:28-29 | the bar ends at or above its total, and is raised only up to the total |
| Streaming.OpenUrlAsWritten | src/geeS2downloader/common.py:14-31 | without a progress bar the call fails with AttributeError |
| Streaming.OpenUrlAsWrittenFailsWithoutBar | src/geeS2downloader/common.py:25-28 | a one-chunk download with no bar raises at the top-up |
| Streaming.OpenUrl | src/geeS2downloader/common.py:14-31 | the buffer is the concatenation of all chunks. A bar ends at `max(n + 1024 * non-empty chunks, total)` |
| Streaming.OpenUrlAgreesWithBar | src/geeS2downloader/common.py:25-29 | with a bar the guarded top-up behaves exactly as written |
| Streaming.BarCoversBody | src/geeS2downloader/common.py:21-29 | with chunks of at most 1024 bytes the bar is never below the bytes received and always reaches its total |
| Streaming.OpenZipUrl | src/geeS2downloader/common.py:34-44 | without a bar (the default) the call raises AttributeError in `open_url`. With a bar it returns the archive's first member; bytes that are not an archive give BadZipFile, and an empty archive gives IndexError |
| Streaming.OpenZipUrlIgnoresBar | src/geeS2downloader/common.py:34-44 | with any bar the result is the first member of the archive of the received bytes, whatever the bar's counters |

## Left out

- Earth Engine requests are parameters: `bandNames().contains`, `getInfo`, `getDownloadUrl` and `nominalScale`.
- The float step computation `int(sqrt(max_size / size) * dimension)` is left out. Steps are parameters.
- CreateTiles: the test `rescale_factor > 1` is modelled as `max_size > size`. A float rounding of `sqrt` that puts a size just below `max_size` on the other side of 1 is not modelled.
- The affine transform is the parameter `toGeo`. Reprojection with `rio.warp.transform_geom` is left out, because it is floating point in a foreign library.
- Threads, `ThreadPoolExecutor`, `sleep` and tqdm are left out. The polling loop is modelled over the sequence of done-counts it observes.
- HTTP streaming and retry sessions (`requests_retry_session`) are left out, as are zip and rasterio decoding. The chunk stream, the archive's member list and each tile's `fetch` result are parameters.
- Logger setup, `print` output, plotting (`plot_tiling`, `plot`, `plot_url`) and `rm_tree` are left out: they are I/O with no effect on the computed values.
- Assemble: the slice assignment requires each tile inside the grid and a block of exactly the tile's shape. numpy's broadcasting, slice clipping and negative slice indices would accept more; tiles from `_create_tiles` never need them.
- CreateGeometry: `pts.append` mutates the caller's list in place. The model returns the closed ring as a new value.
- Tiles.Size: `int(h * w * 1.3)` is modelled with the exact ratio 13/10. For realistic tile areas the binary value of 1.3 gives the same result.
- Download: the `nominal_scale` stored into the band metadata is left out; only tile fetching uses it, and fetching is a parameter.
- Download: the method returns `None` in every case. The model returns the downloader's resulting `array` attribute and the logged message instead, and leaves out the `img`, `band` and `tiles` attributes it also sets.
- BandInfo: the band metadata always has dimensions and an integer `data_type` range. Metadata missing `dimensions`, `min` or `max` raises KeyError in the code, and float data types have no integer range; neither is modelled.
- ToInt16: a float block is truncated toward zero by the cast to `int16` before the wrap-around. Blocks are integer matrices here, so that truncation is not modelled.

## Findings

| source | as written | input that shows it | evidently intended | confidence | as-written member | corrected member |
|---|---|---|---|---|---|---|
| src/geeS2downloader/common.py:25-29 | `open_url` guards `pbar.update(1024)` with `if pbar is not None`. The top-up that follows reads `pbar.n` unguarded. | `pbar=None`, which is the default of `open_zip_url`, with any chunk stream: AttributeError after the body is received | skip the top-up when there is no bar and return the buffer | high, not executed | Streaming.OpenUrlAsWritten | Streaming.OpenUrl |
| src/geeS2downloader/gee.py:185-194 | The done-count taken before the polling loop only decides whether the loop runs; it is never reported. | one tile that finishes before line 187 polls: `total_done` and the tile bar stay at 0 of 1 | every finished tile is reported once, so `total_done` ends at `len(workers)` | high, not executed | Progress.PollAsWrittenMissesEarlyCompletion | Progress.Poll |

=== FILE: assembly.dfy ===
/** Assembly of the band from its tiles (`_download_band`) and the top-level
    `download` call. A tile's download is the abstract `fetch`, whose failure `worker.result()` re-raises. */
module Assembly {
  import opened Wrappers
  import opened Errors
  import opened Tiles
  import opened Tiling

  /** Rows of samples: the output matrix and the decoded tile blocks. */
  type Matrix = seq<seq<int>>

  predicate IsMatrix(m: Matrix, height: int, width: int) {
    |m| == height && forall y :: 0 <= y < |m| ==> |m[y]| == width
  }

  /** Storing an integer into the `int16` output matrix: numpy's unchecked cast keeps the low 16 bits,
      read as a signed value. */
  function ToInt16(v: int): (r: int)
    ensures -32768 <= r < 32768
    ensures (r - v) % 65536 == 0
    ensures -32768 <= v < 32768 ==> r == v
  {
    (v + 32768) % 65536 - 32768
  }

  /** The freshly allocated output matrix: the band's shape, every cell zero. */
  function Zeros(height: nat, width: nat): (m: Matrix)
    ensures IsMatrix(m, height, width)
    ensures forall y, x :: 0 <= y < height && 0 <= x < width ==> m[y][x] == 0
  {
    seq(height, _ => seq(width, _ => 0))
  }

  /** The tile's slices select a (possibly empty) region of an `height` x `width` matrix without clipping. */
  predicate InsideGrid(t: Tile, height: int, width: int) {
    && 0 <= t.sliceY.start <= t.sliceY.stop <= height
    && 0 <= t.sliceX.start <= t.sliceX.stop <= width
  }

  /** The block has exactly the tile's shape. */
  predicate Fits(b: Matrix, t: Tile) {
    IsMatrix(b, Shape(t).0, Shape(t).1)
  }

  /** The sample the block holds for grid pixel (y, x) of its tile. */
  function BlockAt(b: Matrix, t: Tile, y: int, x: int): int
    requires Fits(b, t) && Contains(t, y, x)
  {
    b[y - t.sliceY.start][x - t.sliceX.start]
  }

  /** The slice assignment of one worker's block into the tile's region of the output matrix. */
  function WriteBlock(m: Matrix, height: nat, width: nat, t: Tile, b: Matrix): (r: Matrix)
    requires IsMatrix(m, height, width) && InsideGrid(t, height, width) && Fits(b, t)
    ensures IsMatrix(r, height, width)
    ensures forall y, x :: 0 <= y < height && 0 <= x < width ==>
      r[y][x] == if Contains(t, y, x) then ToInt16(BlockAt(b, t, y, x)) else m[y][x]
  {
    seq(height, y requires 0 <= y < height =>
      seq(width, x requires 0 <= x < width =>
        if Contains(t, y, x) then ToInt16(BlockAt(b, t, y, x)) else m[y][x]))
  }

  /** A tile paired with the outcome of its worker, in the order the tiles were created. */
  type Job = (Tile, Result<Matrix, Error>)

  /** Why writing a job's result raises, if it does: the worker's own failure, or a block that
      does not fit the tile's region. */
  function JobError(job: Job, height: int, width: int): Option<Error> {
    match job.1
    case Failure(e) => Some(e)
    case Success(b) => if InsideGrid(job.0, height, width) && Fits(b, job.0) then None else Some(ShapeMismatch)
  }

  function TilesOf(jobs: seq<Job>): (tiles: seq<Tile>)
    ensures |tiles| == |jobs|
    ensures forall k :: 0 <= k < |jobs| ==> tiles[k] == jobs[k].0
  {
    seq(|jobs|, k requires 0 <= k < |jobs| => jobs[k].0)
  }

  /** The final `for` loop of `_download_band` over tiles and workers: writes each result into its tile's region in order, stopping at the
      first job whose result raises. */
  function Assemble(m: Matrix, height: nat, width: nat, jobs: seq<Job>): (r: Result<Matrix, Error>)
    requires IsMatrix(m, height, width)
    ensures r.Success? ==> IsMatrix(r.value, height, width)
    ensures r.Success? <==> forall k :: 0 <= k < |jobs| ==> JobError(jobs[k], height, width).None?
    ensures r.Failure? ==> exists k :: 0 <= k < |jobs| && JobError(jobs[k], height, width) == Some(r.error)
                                       && forall i :: 0 <= i < k ==> JobError(jobs[i], height, width).None?
    decreases |jobs|
  {
    if |jobs| == 0 then Success(m)
    else
      var (t, result) := jobs[0];
      match JobError(jobs[0], height, width)
      case Some(e) => Failure(e)
      case None =>
        var rest := Assemble(WriteBlock(m, height, width, t, result.value), height, width, jobs[1..]);
        assert forall k :: 1 <= k < |jobs| ==> jobs[k] == jobs[1..][k - 1];
        rest
  }

  lemma {:induction false} CoverageSomewhere(tiles: seq<Tile>, y: int, x: int)
    requires Coverage(tiles, y, x) >= 1
    ensures exists k :: 0 <= k < |tiles| && Contains(tiles[k], y, x)
  {
    if !Contains(tiles[0], y, x) {
      CoverageSomewhere(tiles[1..], y, x);
      var k :| 0 <= k < |tiles[1..]| && Contains(tiles[1..][k], y, x);
      assert Contains(tiles[k + 1], y, x);
    }
  }

  lemma {:induction false} CoverageCountsTile(tiles: seq<Tile>, k: nat, y: int, x: int)
    requires k < |tiles| && Contains(tiles[k], y, x)
    ensures Coverage(tiles, y, x) >= 1
    ensures Coverage(tiles, y, x) == 1 ==> forall l :: 0 <= l < |tiles| && l != k ==> !Contains(tiles[l], y, x)
  {
    if k > 0 {
      CoverageCountsTile(tiles[1..], k - 1, y, x);
      forall l | 0 <= l < |tiles| && l != k && Coverage(tiles, y, x) == 1
        ensures !Contains(tiles[l], y, x)
      {
        if l > 0 {
          assert tiles[l] == tiles[1..][l - 1];
        }
      }
    } else {
      forall l | 0 < l < |tiles| && Coverage(tiles, y, x) == 1
        ensures !Contains(tiles[l], y, x)
      {
        if Contains(tiles[l], y, x) {
          CoverageCountsTile(tiles[1..], l - 1, y, x);
        }
      }
    }
  }

  /** After a successful assembly, a cell no tile covers keeps its initial value, and a cell covered
      by exactly one tile holds that tile's sample, cast to `int16`. */
  lemma {:induction false} AssembleCells(m: Matrix, height: nat, width: nat, jobs: seq<Job>, y: int, x: int)
    requires IsMatrix(m, height, width) && 0 <= y < height && 0 <= x < width
    requires Assemble(m, height, width, jobs).Success?
    ensures Coverage(TilesOf(jobs), y, x) == 0 ==> Assemble(m, height, width, jobs).value[y][x] == m[y][x]
    ensures forall k :: 0 <= k < |jobs| && Contains(jobs[k].0, y, x) && Coverage(TilesOf(jobs), y, x) == 1 ==>
      Assemble(m, height, width, jobs).value[y][x] == ToInt16(BlockAt(jobs[k].1.value, jobs[k].0, y, x))
    decreases |jobs|
  {
    if |jobs| > 0 {
      var t := jobs[0].0;
      var b := jobs[0].1.value;
      assert JobError(jobs[0], height, width).None?;
      var m' := WriteBlock(m, height, width, t, b);
      var tiles := TilesOf(jobs);
      assert TilesOf(jobs[1..]) == tiles[1..];
      AssembleCells(m', height, width, jobs[1..], y, x);
      forall k | 0 <= k < |jobs| && Contains(jobs[k].0, y, x) && Coverage(tiles, y, x) == 1
        ensures Assemble(m, height, width, jobs).value[y][x] == ToInt16(BlockAt(jobs[k].1.value, jobs[k].0, y, x))
      {
        CoverageCountsTile(tiles, k, y, x);
        if k > 0 {
          assert jobs[k] == jobs[1..][k - 1];
        }
      }
    }
  }

  /** The workers list of `_download_band`: the submit loop appends one worker per tile of `self.tiles`,
      in order, and a worker's `result()` is its tile's fetch. */
  function Submitted(tiles: seq<Tile>, fetch: Tile -> Result<Matrix, Error>): (workers: seq<Result<Matrix, Error>>)
    ensures |workers| == |tiles|
    ensures forall k :: 0 <= k < |tiles| ==> workers[k] == fetch(tiles[k])
  {
    if |tiles| == 0 then [] else Submitted(tiles[..|tiles| - 1], fetch) + [fetch(tiles[|tiles| - 1])]
  }

  /** The submit loop itself: a `for` over the tiles that appends each tile's worker. */
  method SubmitLoop(tiles: seq<Tile>, fetch: Tile -> Result<Matrix, Error>) returns (workers: seq<Result<Matrix, Error>>)
    ensures workers == Submitted(tiles, fetch)
    ensures |workers| == |tiles|
  {
    workers := [];
    for i := 0 to |tiles|
      invariant workers == Submitted(tiles[..i], fetch)
    {
      assert tiles[..i + 1][..i] == tiles[..i];
      workers := workers + [fetch(tiles[i])];
    }
    assert tiles[..|tiles|] == tiles;
  }

  /** Python's `zip`: pairs up to the shorter of the two sequences. */
  function Zip<A, B>(a: seq<A>, b: seq<B>): (pairs: seq<(A, B)>)
    ensures |pairs| == if |a| <= |b| then |a| else |b|
    ensures forall k :: 0 <= k < |pairs| ==> pairs[k] == (a[k], b[k])
  {
    if |a| == 0 || |b| == 0 then [] else [(a[0], b[0])] + Zip(a[1..], b[1..])
  }

  /** The final loop of `_download_band` walks `zip(self.tiles, workers)`. Because the submit loop made one
      worker per tile in the same order, nothing is cut off and job `k` holds tile `k` with its own result. */
  function Jobs(tiles: seq<Tile>, fetch: Tile -> Result<Matrix, Error>): (jobs: seq<Job>)
    ensures TilesOf(jobs) == tiles
    ensures forall k :: 0 <= k < |tiles| ==> jobs[k] == (tiles[k], fetch(tiles[k]))
  {
    Zip(tiles, Submitted(tiles, fetch))
  }

  /** Two regions with no pixel in common. */
  ghost predicate Disjoint(a: Tile, b: Tile) {
    forall y, x :: !(Contains(a, y, x) && Contains(b, y, x))
  }

  /** Writes into non-overlapping regions commute: the order in which workers' blocks are stored does not
      matter for tiles that partition the grid. */
  lemma WriteBlocksCommute(m: Matrix, height: nat, width: nat, a: Tile, ba: Matrix, b: Tile, bb: Matrix)
    requires IsMatrix(m, height, width)
    requires InsideGrid(a, height, width) && Fits(ba, a)
    requires InsideGrid(b, height, width) && Fits(bb, b)
    requires Disjoint(a, b)
    ensures WriteBlock(WriteBlock(m, height, width, a, ba), height, width, b, bb)
         == WriteBlock(WriteBlock(m, height, width, b, bb), height, width, a, ba)
  {
    var ab := WriteBlock(WriteBlock(m, height, width, a, ba), height, width, b, bb);
    var ba' := WriteBlock(WriteBlock(m, height, width, b, bb), height, width, a, ba);
    forall y | 0 <= y < height
      ensures ab[y] == ba'[y]
    {
      forall x | 0 <= x < width
        ensures ab[y][x] == ba'[y][x]
      {
        assert !(Contains(a, y, x) && Contains(b, y, x));
      }
    }
  }

  /** The tiles `_download_band` creates: `_create_tiles` with its default `max_size`. The steps stand
      for the float-derived products of the rescale factor and each dimension. */
  function BandTiles(info: BandInfo, stepY: int, stepX: int): Result<seq<Tile>, Error>
    requires Sweeps(Some(info), DefaultMaxSize) ==> stepY >= 1 && stepX >= 1
  {
    CreateTiles(Some(info), DefaultMaxSize, stepY, stepX)
  }

  /** Every tile's worker returns a block of the tile's shape. */
  predicate AllFetched(tiles: seq<Tile>, fetch: Tile -> Result<Matrix, Error>) {
    forall k :: 0 <= k < |tiles| ==> fetch(tiles[k]).Success? && Fits(fetch(tiles[k]).value, tiles[k])
  }

  /** `_download_band`: zero matrix, tiles, one fetch per tile, then the writes. */
  function DownloadBand(info: BandInfo, stepY: int, stepX: int,
                        fetch: Tile -> Result<Matrix, Error>): (r: Result<Matrix, Error>)
    requires Sweeps(Some(info), DefaultMaxSize) ==> stepY >= 1 && stepX >= 1
    ensures BandTiles(info, stepY, stepX).Failure? ==> r == Failure(BandTiles(info, stepY, stepX).error)
    ensures r.Success? <==>
      BandTiles(info, stepY, stepX).Success? && AllFetched(BandTiles(info, stepY, stepX).value, fetch)
    ensures r.Success? ==> IsMatrix(r.value, info.height, info.width)
  {
    var tiles :- BandTiles(info, stepY, stepX);
    var jobs := Jobs(tiles, fetch);
    assert forall k :: 0 <= k < |tiles| ==> WithinGrid(tiles[k], info.height, info.width);
    Assemble(Zeros(info.height, info.width), info.height, info.width, jobs)
  }

  /** The assembled band: every pixel lies in exactly one tile and holds that tile's fetched
      sample at the pixel's offset inside the tile, so no cell keeps the zero default and none is
      written twice. */
  lemma DownloadBandCells(info: BandInfo, stepY: int, stepX: int,
                          fetch: Tile -> Result<Matrix, Error>, y: int, x: int)
    requires Sweeps(Some(info), DefaultMaxSize) ==> stepY >= 1 && stepX >= 1
    requires DownloadBand(info, stepY, stepX, fetch).Success?
    requires 0 <= y < info.height && 0 <= x < info.width
    ensures var tiles := BandTiles(info, stepY, stepX).value;
      && Coverage(tiles, y, x) == 1
      && (exists k :: 0 <= k < |tiles| && Contains(tiles[k], y, x))
      && forall k :: 0 <= k < |tiles| && Contains(tiles[k], y, x) ==>
           DownloadBand(info, stepY, stepX, fetch).value[y][x]
           == ToInt16(BlockAt(fetch(tiles[k]).value, tiles[k], y, x))
  {
    var tiles := BandTiles(info, stepY, stepX).value;
    var jobs := Jobs(tiles, fetch);
    assert Coverage(tiles, y, x) == 1;
    CoverageSomewhere(tiles, y, x);
    AssembleCells(Zeros(info.height, info.width), info.height, info.width, jobs, y, x);
  }

  /** The downloader's `array` attribute (`stored`) after a `download` call, and the error it logged. */
  datatype Downloaded = Downloaded(stored: Option<Matrix>, logged: Option<string>)

  /** The message `download` logs for a missing band. */
  function MissingBandMessage(band: string): string {
    "Image does not contain band " + band
  }

  /** `GEES2Downloader.download`: for a missing band it logs an error and returns normally, leaving the
      `array` attribute as it was (`previous`). Otherwise `array` becomes the downloaded band, or the
      band's failure is raised. The band's existence, metadata and steps are parameters. */
  function Download(previous: Option<Matrix>, bandExists: bool, band: string, info: BandInfo,
                    stepY: int, stepX: int, fetch: Tile -> Result<Matrix, Error>): (r: Result<Downloaded, Error>)
    requires Sweeps(Some(info), DefaultMaxSize) ==> stepY >= 1 && stepX >= 1
    ensures r.Success? <==>
      !bandExists || (BandTiles(info, stepY, stepX).Success? && AllFetched(BandTiles(info, stepY, stepX).value, fetch))
    ensures r.Success? && !bandExists ==> r.value == Downloaded(previous, Some(MissingBandMessage(band)))
    ensures r.Success? && bandExists ==>
      r.value.logged.None? && r.value.stored.Some? && IsMatrix(r.value.stored.value, info.height, info.width)
    ensures r.Failure? ==> bandExists
  {
    if bandExists then
      var matrix :- DownloadBand(info, stepY, stepX, fetch);
      Success(Downloaded(Some(matrix), None))
    else
      Success(Downloaded(previous, Some(MissingBandMessage(band))))
  }

  /** A missing band is decided before anything is fetched: the outcome is the same whatever the
      metadata, steps and tile downloads would have been. */
  lemma DownloadMissingBandFetchesNothing(previous: Option<Matrix>, band: string,
                                          info: BandInfo, stepY: int, stepX: int, fetch: Tile -> Result<Matrix, Error>,
                                          info': BandInfo, stepY': int, stepX': int, fetch': Tile -> Result<Matrix, Error>)
    requires Sweeps(Some(info), DefaultMaxSize) ==> stepY >= 1 && stepX >= 1
    requires Sweeps(Some(info'), DefaultMaxSize) ==> stepY' >= 1 && stepX' >= 1
    ensures Download(previous, false, band, info, stepY, stepX, fetch)
         == Download(previous, false, band, info', stepY', stepX', fetch')
         == Success(Downloaded(previous, Some(MissingBandMessage(band))))
  {
  }

  /** After a successful download of an existing band, every pixel of `array` holds the int16 cast of
      its one tile's fetched sample. */
  lemma DownloadCells(previous: Option<Matrix>, band: string, info: BandInfo, stepY: int, stepX: int,
                      fetch: Tile -> Result<Matrix, Error>, y: int, x: int)
    requires Sweeps(Some(info), DefaultMaxSize) ==> stepY >= 1 && stepX >= 1
    requires Download(previous, true, band, info, stepY, stepX, fetch).Success?
    requires 0 <= y < info.height && 0 <= x < info.width
    ensures var tiles := BandTiles(info, stepY, stepX).value;
      && (exists k :: 0 <= k < |tiles| && Contains(tiles[k], y, x))
      && forall k :: 0 <= k < |tiles| && Contains(tiles[k], y, x) ==>
           Download(previous, true, band, info, stepY, stepX, fetch).value.stored.value[y][x]
           == ToInt16(BlockAt(fetch(tiles[k]).value, tiles[k], y, x))
  {
    DownloadBandCells(info, stepY, stepX, fetch, y, x);
  }
}

=== FILE: decimal.dfy ===
/** Decimal rendering of integers, as Python's `str(int)` / f-string formatting does it, with its inverse. */
module Decimal {
  import opened Wrappers

  predicate IsDigit(c: char) {
    '0' <= c <= '9'
  }

  /** A character that can occur in the rendering of an integer. */
  predicate IsNumeral(c: char) {
    IsDigit(c) || c == '-'
  }

  predicate AllDigits(s: string) {
    forall k :: 0 <= k < |s| ==> IsDigit(s[k])
  }

  function DigitChar(d: nat): (c: char)
    requires d < 10
    ensures IsDigit(c) && (c as int) - ('0' as int) == d
  {
    (('0' as int) + d) as char
  }

  function DigitValue(c: char): (d: nat)
    requires IsDigit(c)
    ensures d < 10 && DigitChar(d) == c
  {
    (c as int) - ('0' as int)
  }

  /** Decimal digits of `n`, most significant first, without leading zeros. */
  function NatToString(n: nat): (s: string)
    ensures |s| >= 1 && AllDigits(s)
    ensures |s| > 1 ==> s[0] != '0'
  {
    if n < 10 then [DigitChar(n)] else NatToString(n / 10) + [DigitChar(n % 10)]
  }

  /** Value of a string of decimal digits (the empty string reads as 0). */
  function ParseNat(s: string): nat
    requires AllDigits(s)
  {
    if |s| == 0 then 0 else ParseNat(s[..|s| - 1]) * 10 + DigitValue(s[|s| - 1])
  }

  lemma {:induction false} ParseNatToString(n: nat)
    ensures ParseNat(NatToString(n)) == n
  {
    var s := NatToString(n);
    if n >= 10 {
      assert s[..|s| - 1] == NatToString(n / 10);
      ParseNatToString(n / 10);
    }
  }

  /** `str(i)`: a minus sign followed by the digits of `-i` for negative `i`. */
  function IntToString(i: int): (s: string)
    ensures |s| >= 1
    ensures forall k :: 0 <= k < |s| ==> IsNumeral(s[k])
    ensures s[0] == '-' <==> i < 0
  {
    if i < 0 then "-" + NatToString(-i) else NatToString(i)
  }

  /** Reads back what `IntToString` writes; `None` for anything else. */
  function ParseInt(s: string): Option<int> {
    if |s| >= 2 && s[0] == '-' && AllDigits(s[1..]) then Some(-(ParseNat(s[1..]) as int))
    else if |s| >= 1 && AllDigits(s) then Some(ParseNat(s))
    else None
  }

  lemma ParseIntToString(i: int)
    ensures ParseInt(IntToString(i)) == Some(i)
  {
    var s := IntToString(i);
    if i < 0 {
      assert s[1..] == NatToString(-i);
      ParseNatToString(-i);
    } else {
      ParseNatToString(i);
    }
  }
}

=== FILE: geometry.dfy ===
/** `create_geometry` (common.py) and the ring a tile builds for its polygon (`Tile.polygon`).
    Coordinates are an abstract type; GeoJSON validity is the abstract predicate `isValid`. */
module Geometry {
  import opened Wrappers
  import opened Errors
  import opened Tiles
  import opened Tiling

  /** A GeoJSON Point or Polygon (a list of rings). */
  datatype Geometry<P> = Point(coordinates: P) | Polygon(rings: seq<seq<P>>)

  /** What `create_geometry` is handed: a tuple, an existing Point or Polygon, or a list of points. */
  datatype GeometryInput<P> = Tuple(point: P) | Existing(geometry: Geometry<P>) | PointList(points: seq<P>)

  /** The invalid-geometry message goes to the caller's logger when one is given, else to standard output. */
  datatype Sink = Logger | Stdout
  datatype Message = Message(sink: Sink, text: string)

  const InvalidMessage: string := "Informed points do not correspond to a valid polygon."

  /** What a call produces: the returned geometry (`None` when invalid) and the message it emits. */
  datatype Built<P> = Built(geometry: Option<Geometry<P>>, message: Option<Message>)

  /** The ring's first point equals its last. */
  predicate IsClosed<P(==)>(ring: seq<P>) {
    |ring| >= 1 && ring[0] == ring[|ring| - 1]
  }

  /** Closes a non-empty point list: the first point is appended when it differs from the last one. */
  function CloseRing<P(==)>(pts: seq<P>): (ring: seq<P>)
    requires |pts| >= 1
    ensures IsClosed(ring)
    ensures pts <= ring && |ring| <= |pts| + 1
    ensures ring == pts <==> IsClosed(pts)
    ensures |ring| == |pts| + 1 ==> ring[|pts|] == pts[0]
  {
    if pts[0] != pts[|pts| - 1] then pts + [pts[0]] else pts
  }

  /** Closing a ring twice is the same as closing it once. */
  lemma CloseRingIdempotent<P>(pts: seq<P>)
    requires |pts| >= 1
    ensures CloseRing(CloseRing(pts)) == CloseRing(pts)
  {
  }

  /** The `if / elif / else` of `create_geometry`: the geometry before validation. An empty point list
      fails at `pts[0]`. */
  function Construct<P(==)>(input: GeometryInput<P>): (r: Result<Geometry<P>, Error>)
    ensures r.Failure? <==> input.PointList? && |input.points| == 0
    ensures r.Failure? ==> r.error == IndexError
    ensures input.Tuple? ==> r == Success(Point(input.point))
    ensures input.Existing? ==> r == Success(input.geometry)
    ensures input.PointList? && r.Success? ==>
      && r.value.Polygon? && |r.value.rings| == 1
      && IsClosed(r.value.rings[0])
      && input.points <= r.value.rings[0] && |r.value.rings[0]| <= |input.points| + 1
  {
    match input
    case Tuple(p) => Success(Point(p))
    case Existing(g) => Success(g)
    case PointList(pts) =>
      if |pts| == 0 then Failure(IndexError) else Success(Polygon([CloseRing(pts)]))
  }

  /** `create_geometry`: returns the geometry when `is_valid` holds, and otherwise returns
      `None` after emitting the error message. */
  function CreateGeometry<P(==)>(input: GeometryInput<P>, isValid: Geometry<P> -> bool, hasLogger: bool)
    : (r: Result<Built<P>, Error>)
    ensures r.Failure? <==> input.PointList? && |input.points| == 0
    ensures r.Success? ==> (r.value.geometry.Some? <==> r.value.message.None?)
    ensures r.Success? && r.value.geometry.Some? ==>
      isValid(r.value.geometry.value) && Construct(input) == Success(r.value.geometry.value)
    ensures r.Success? && r.value.geometry.None? ==>
      !isValid(Construct(input).value)
      && r.value.message == Some(Message(if hasLogger then Logger else Stdout, InvalidMessage))
    ensures input.Existing? && isValid(input.geometry) ==> r == Success(Built(Some(input.geometry), None))
  {
    var g :- Construct(input);
    if isValid(g) then Success(Built(Some(g), None))
    else Success(Built(None, Some(Message(if hasLogger then Logger else Stdout, InvalidMessage))))
  }

  /** A geographic coordinate pair. */
  datatype Coord<N> = Coord(x: N, y: N)

  /** `Tile.bounding_box`: the affine transform applied to (x, y) = (column, row) of the tile's top-left
      and bottom-right pixel corners. The transform is the parameter `toGeo`. */
  function BoundingBox<N>(t: Tile, toGeo: (int, int) -> Coord<N>): (Coord<N>, Coord<N>) {
    (toGeo(t.sliceX.start, t.sliceY.start), toGeo(t.sliceX.stop, t.sliceY.stop))
  }

  /** The four corners `Tile.polygon` lists: top-left, top-right, bottom-right, bottom-left. */
  function Corners<N>(topLeft: Coord<N>, bottomRight: Coord<N>): seq<Coord<N>> {
    [topLeft, Coord(bottomRight.x, topLeft.y), bottomRight, Coord(topLeft.x, bottomRight.y)]
  }

  /** `Tile.polygon()` without reprojection: the corners closed into a ring. The list is closed only when
      its first corner differs from its last, that is when the two corners differ in y. */
  function TilePolygon<N(==)>(t: Tile, toGeo: (int, int) -> Coord<N>, isValid: Geometry<Coord<N>> -> bool)
    : (r: Result<Built<Coord<N>>, Error>)
    ensures r.Success?
    ensures var (tl, br) := BoundingBox(t, toGeo);
      r.value.geometry.Some? ==>
        r.value.geometry.value
        == Polygon([Corners(tl, br) + (if tl.y != br.y then [tl] else [])])
    ensures r.value.geometry.None? ==> r.value.message == Some(Message(Stdout, InvalidMessage))
  {
    var (tl, br) := BoundingBox(t, toGeo);
    var corners := Corners(tl, br);
    assert corners[0] != corners[|corners| - 1] <==> tl.y != br.y;
    assert CloseRing(corners) == corners + (if tl.y != br.y then [tl] else []);
    assert Construct(PointList(corners)) == Success(Polygon([CloseRing(corners)]));
    CreateGeometry(PointList(corners), isValid, false)
  }

  /** Along a row of the sweep each tile's bounding box starts at the transform of the previous tile's
      top-right pixel corner and ends on the same bottom row, whatever the transform. */
  lemma RowBoxesAbut<N>(p: Plan, y: int, x: int, toGeo: (int, int) -> Coord<N>, k: int)
    requires Stepping(p)
    requires 0 <= k < |RowSweep(p, y, x)| - 1
    ensures var (prev, next) := (RowSweep(p, y, x)[k], RowSweep(p, y, x)[k + 1]);
      && BoundingBox(next, toGeo).0 == toGeo(prev.sliceX.stop, prev.sliceY.start)
      && BoundingBox(next, toGeo).1 == toGeo(next.sliceX.stop, prev.sliceY.stop)
  {
    RowSweepAbuts(p, y, x);
  }
}

=== FILE: progress.dfy ===
/** Tile-level progress accounting of `_download_band`: counting finished workers and the polling
    loop that turns successive counts into progress-bar updates. Worker threads are abstracted
    into the sequence of completion snapshots the loop observes. */
module Progress {

  /** Number of `true` entries: the reference count of finished workers. */
  function CountDone(done: seq<bool>): (r: nat)
    ensures r <= |done|
    ensures r == |done| <==> forall k :: 0 <= k < |done| ==> done[k]
  {
    if |done| == 0 then 0 else (if done[0] then 1 else 0) + CountDone(done[1..])
  }

  lemma {:induction false} CountDoneAppend(a: seq<bool>, b: bool)
    ensures CountDone(a + [b]) == CountDone(a) + (if b then 1 else 0)
  {
    if |a| == 0 {
      assert a + [b] == [b];
    } else {
      assert (a + [b])[1..] == a[1..] + [b];
      CountDoneAppend(a[1..], b);
    }
  }

  /** `_workers_done`: counts the finished workers; `done[k]` says whether worker `k` has finished. */
  method WorkersDone(done: seq<bool>) returns (running: nat)
    ensures running == CountDone(done)
    ensures running <= |done|
  {
    running := 0;
    var k := 0;
    while k < |done|
      invariant k <= |done|
      invariant running == CountDone(done[..k])
    {
      assert done[..k + 1] == done[..k] + [done[k]];
      CountDoneAppend(done[..k], done[k]);
      running := running + (if done[k] then 1 else 0);
      k := k + 1;
    }
    assert done[..k] == done;
  }

  /** Sum of the progress-bar increments. */
  function Sum(updates: seq<nat>): nat {
    if |updates| == 0 then 0 else updates[0] + Sum(updates[1..])
  }

  /** The final `total_done` and the increments passed to the tile progress bar along the way. */
  datatype Polled = Polled(totalDone: nat, updates: seq<nat>)

  /** Counts the polling loop may observe for `n` workers: never more than `n`, and the last reaches `n`. */
  predicate Observable(n: nat, observed: seq<nat>) {
    && |observed| >= 1
    && observed[|observed| - 1] == n
    && forall k :: 0 <= k < |observed| ==> observed[k] <= n
  }

  /** The body of the polling `while` loop of `_download_band`, run on the counts `observed`,
      starting from `totalDone`: each count above the running total is reported as the difference,
      and the loop stops after the first count that reaches `n`. */
  function PollLoop(n: nat, observed: seq<nat>, totalDone: nat): (r: Polled)
    requires Observable(n, observed) && totalDone <= n
    ensures r.totalDone == n
    ensures Sum(r.updates) == n - totalDone
    ensures forall k :: 0 <= k < |r.updates| ==> r.updates[k] >= 1
    decreases |observed|
  {
    var done := observed[0];
    var total := if done > totalDone then done else totalDone;
    var reported := if done > totalDone then [done - totalDone] else [];
    if done < n then
      var rest := PollLoop(n, observed[1..], total);
      assert Sum(reported + rest.updates) == Sum(reported) + Sum(rest.updates) by {
        if |reported| == 1 {
          assert (reported + rest.updates)[1..] == rest.updates;
        } else {
          assert reported + rest.updates == rest.updates;
        }
      }
      Polled(rest.totalDone, reported + rest.updates)
    else
      Polled(total, reported)
  }

  /** The polling as written: the count `_workers_done` returns just before the `while` loop only
      decides whether the loop runs at all and is not reported. When it already equals `n` nothing
      is reported. */
  function PollAsWritten(n: nat, observed: seq<nat>): (r: Polled)
    requires Observable(n, observed)
    ensures r.totalDone <= n && Sum(r.updates) == r.totalDone
    ensures forall k :: 0 <= k < |r.updates| ==> r.updates[k] >= 1
    ensures r.totalDone == n <==> observed[0] < n || n == 0
  {
    if observed[0] < n then PollLoop(n, observed[1..], 0) else Polled(0, [])
  }

  /** A single tile that is finished before the first poll is never reported:
      the tile counter stays at 0 of 1. */
  lemma PollAsWrittenMissesEarlyCompletion()
    ensures PollAsWritten(1, [1]).totalDone == 0
    ensures PollAsWritten(1, [1]).updates == []
  {
  }

  /** The polling loop with the count taken before the loop reported like every later one. */
  function Poll(n: nat, observed: seq<nat>): (r: Polled)
    requires Observable(n, observed)
    ensures r.totalDone == n && Sum(r.updates) == n
    ensures forall k :: 0 <= k < |r.updates| ==> r.updates[k] >= 1
  {
    PollLoop(n, observed, 0)
  }

  predicate AllDone(done: seq<bool>) {
    forall w :: 0 <= w < |done| ==> done[w]
  }

  /** The counts observed when `_workers_done` is applied to successive completion snapshots. */
  function Observations(snapshots: seq<seq<bool>>): (observed: seq<nat>)
    ensures |observed| == |snapshots|
    ensures forall k :: 0 <= k < |snapshots| ==> observed[k] == CountDone(snapshots[k])
  {
    if |snapshots| == 0 then [] else [CountDone(snapshots[0])] + Observations(snapshots[1..])
  }

  /** Snapshots of `n` workers whose last snapshot has every worker done yield counts the loop can
      consume, and then the corrected loop reports every worker exactly once in total. */
  lemma SnapshotsObservable(n: nat, snapshots: seq<seq<bool>>)
    requires |snapshots| >= 1
    requires forall k :: 0 <= k < |snapshots| ==> |snapshots[k]| == n
    requires AllDone(snapshots[|snapshots| - 1])
    ensures Observable(n, Observations(snapshots))
    ensures Poll(n, Observations(snapshots)).totalDone == n
  {
  }
}

=== FILE: streaming.dfy ===
/** `open_url` and `open_zip_url` (common.py) over an abstract stream of chunks: the body is
    accumulated in memory and a byte progress bar is advanced per chunk. */
module Streaming {
  import opened Wrappers
  import opened Errors

  newtype byte = b: int | 0 <= b < 256

  /** Read size passed to `iter_content`, and the amount the bar advances per chunk. */
  const ChunkSize: nat := 1024

  /** A tqdm bar: its counter `n` and its `total`. */
  datatype Bar = Bar(n: int, total: int)

  /** Advancing the bar's counter by `k`. */
  function Update(bar: Bar, k: int): Bar {
    Bar(bar.n + k, bar.total)
  }

  /** All chunks, concatenated. */
  function Flatten(chunks: seq<seq<byte>>): (r: seq<byte>)
    ensures |chunks| == 0 ==> r == []
  {
    if |chunks| == 0 then [] else chunks[0] + Flatten(chunks[1..])
  }

  /** Number of non-empty chunks. */
  function NonEmptyCount(chunks: seq<seq<byte>>): (r: nat)
    ensures r <= |chunks|
  {
    if |chunks| == 0 then 0 else (if |chunks[0]| > 0 then 1 else 0) + NonEmptyCount(chunks[1..])
  }

  /** The body and the bar after the chunk loop of `open_url`. */
  datatype Received = Received(body: seq<byte>, bar: Option<Bar>)

  /** The loop over the response's chunks: empty chunks are skipped; each other chunk is written
      to the buffer and advances the bar by a full 1024, whatever its length. */
  function ReadChunks(chunks: seq<seq<byte>>, body: seq<byte>, bar: Option<Bar>): (r: Received)
    ensures r.body == body + Flatten(chunks)
    ensures bar.None? <==> r.bar.None?
    ensures bar.Some? ==> r.bar == Some(Update(bar.value, ChunkSize * NonEmptyCount(chunks)))
  {
    if |chunks| == 0 then Received(body, bar)
    else
      var chunk := chunks[0];
      var body' := if |chunk| > 0 then body + chunk else body;
      var bar' := if |chunk| > 0 && bar.Some? then Some(Update(bar.value, ChunkSize)) else bar;
      var r := ReadChunks(chunks[1..], body', bar');
      assert body' + Flatten(chunks[1..]) == body + Flatten(chunks);
      r
  }

  /** After the loop, a bar still below its total is advanced up to the total. */
  function TopUp(bar: Bar): (r: Bar)
    ensures r.total == bar.total && r.n >= bar.total && r.n >= bar.n
    ensures r.n == bar.n || r.n == bar.total
  {
    if bar.n < bar.total then Update(bar, bar.total - bar.n) else bar
  }

  /** `open_url` as written: the final top-up reads `pbar.n` even when `pbar` is `None`,
      which raises after the whole body has been received. */
  function OpenUrlAsWritten(chunks: seq<seq<byte>>, pbar: Option<Bar>): (r: Result<Received, Error>)
    ensures pbar.None? <==> r == Failure(AttributeError)
  {
    var received := ReadChunks(chunks, [], pbar);
    if received.bar.None? then Failure(AttributeError)
    else Success(Received(received.body, Some(TopUp(received.bar.value))))
  }

  /** Without a bar the unguarded top-up fails, even though the loop itself guards `pbar`. */
  lemma OpenUrlAsWrittenFailsWithoutBar()
    ensures OpenUrlAsWritten([[1 as byte]], None) == Failure(AttributeError)
  {
  }

  /** `open_url` with the top-up guarded like the loop: the buffer is the in-order concatenation of the
      chunks, and a bar ends at `max(n + 1024 * non-empty chunks, total)`. */
  function OpenUrl(chunks: seq<seq<byte>>, pbar: Option<Bar>): (r: Received)
    ensures r.body == Flatten(chunks)
    ensures pbar.None? <==> r.bar.None?
    ensures pbar.Some? ==>
      var advanced := pbar.value.n + ChunkSize * NonEmptyCount(chunks);
      && r.bar.value.total == pbar.value.total
      && r.bar.value.n == (if advanced < pbar.value.total then pbar.value.total else advanced)
  {
    var received := ReadChunks(chunks, [], pbar);
    assert [] + Flatten(chunks) == Flatten(chunks);
    if received.bar.None? then received
    else Received(received.body, Some(TopUp(received.bar.value)))
  }

  /** With a bar the fix changes nothing. */
  lemma OpenUrlAgreesWithBar(chunks: seq<seq<byte>>, bar: Bar)
    ensures OpenUrlAsWritten(chunks, Some(bar)) == Success(OpenUrl(chunks, Some(bar)))
  {
  }

  lemma {:induction false} FlattenLength(chunks: seq<seq<byte>>)
    requires forall k :: 0 <= k < |chunks| ==> |chunks[k]| <= ChunkSize
    ensures |Flatten(chunks)| <= ChunkSize * NonEmptyCount(chunks)
  {
    if |chunks| > 0 {
      FlattenLength(chunks[1..]);
    }
  }

  /** With chunks of at most 1024 bytes the bar never falls behind the bytes received, and it always
      reaches its total. */
  lemma BarCoversBody(chunks: seq<seq<byte>>, bar: Bar)
    requires forall k :: 0 <= k < |chunks| ==> |chunks[k]| <= ChunkSize
    ensures OpenUrl(chunks, Some(bar)).bar.value.n >= bar.n + |OpenUrl(chunks, Some(bar)).body|
    ensures OpenUrl(chunks, Some(bar)).bar.value.n >= bar.total
  {
    FlattenLength(chunks);
  }

  /** `open_zip_url`: the body read as a zip archive (the abstract `members`, `None` when the bytes are
      not an archive), of which only the first member is returned. It calls `open_url` as written, so
      its default of no progress bar fails at the top-up before the archive is read. */
  function OpenZipUrl(chunks: seq<seq<byte>>, pbar: Option<Bar>, members: seq<byte> -> Option<seq<seq<byte>>>)
    : (r: Result<seq<byte>, Error>)
    ensures pbar.None? ==> r == Failure(AttributeError)
    ensures pbar.Some? ==>
      && (members(Flatten(chunks)).None? <==> r == Failure(BadZipFile))
      && (r.Success? <==> members(Flatten(chunks)).Some? && |members(Flatten(chunks)).value| >= 1)
    ensures pbar.Some? && members(Flatten(chunks)) == Some([]) ==> r == Failure(IndexError)
    ensures r.Success? ==> r.value == members(Flatten(chunks)).value[0]
  {
    var received :- OpenUrlAsWritten(chunks, pbar);
    assert received == OpenUrl(chunks, pbar);
    match members(received.body)
    case None => Failure(BadZipFile)
    case Some(files) => if |files| == 0 then Failure(IndexError) else Success(files[0])
  }

  /** With a progress bar, the extracted member depends only on the bytes received: any two bars give the
      same result, the first member of the concatenated chunks' archive. */
  lemma OpenZipUrlIgnoresBar(chunks: seq<seq<byte>>, a: Bar, b: Bar, members: seq<byte> -> Option<seq<seq<byte>>>)
    requires members(Flatten(chunks)).Some? && |members(Flatten(chunks)).value| >= 1
    ensures OpenZipUrl(chunks, Some(a), members) == OpenZipUrl(chunks, Some(b), members)
                                                  == Success(members(Flatten(chunks)).value[0])
  {
    OpenUrlAgreesWithBar(chunks, a);
    OpenUrlAgreesWithBar(chunks, b);
  }
}

=== FILE: tiles.dfy ===
/** The `Tile` record of gee.py: a half-open pixel rectangle with its derived shape, size and text form. */
module Tiles {
  import opened Wrappers
  import opened Decimal

  /** `slice(start, stop)` with the default step: the index range [start, stop). */
  datatype Slice = Slice(start: int, stop: int)

  /** The rectangle [sliceY) x [sliceX) of a band's pixel grid. The reference to the band metadata
      that the source keeps beside the slices is only used by the left-out download and geometry code. */
  datatype Tile = Tile(sliceY: Slice, sliceX: Slice)

  /** `Tile.shape`: (rows, columns) the two slices select. */
  function Shape(t: Tile): (int, int) {
    (t.sliceY.stop - t.sliceY.start, t.sliceX.stop - t.sliceX.start)
  }

  /** Number of pixels, `shape[0] * shape[1]`. */
  function Area(t: Tile): int {
    Shape(t).0 * Shape(t).1
  }

  /** Pixel (y, x) lies in the tile. */
  predicate Contains(t: Tile, y: int, x: int) {
    t.sliceY.start <= y < t.sliceY.stop && t.sliceX.start <= x < t.sliceX.stop
  }

  /** The tile is non-empty and lies inside an `height` x `width` grid. */
  predicate WithinGrid(t: Tile, height: int, width: int) {
    && 0 <= t.sliceY.start < t.sliceY.stop <= height
    && 0 <= t.sliceX.start < t.sliceX.stop <= width
  }

  /** `Tile.size`: the byte estimate shown by a tile's progress bar, 1.3 times the area truncated
      toward zero, that is 13/10 of the area rounded toward zero. */
  function Size(t: Tile): (r: int)
    ensures Area(t) >= 0 ==> 10 * r <= 13 * Area(t) < 10 * r + 10
    ensures Area(t) < 0 ==> 10 * r - 10 < 13 * Area(t) <= 10 * r
    ensures Area(t) >= 0 ==> Area(t) <= r
  {
    var scaled := 13 * Area(t);
    if scaled >= 0 then scaled / 10 else -((-scaled) / 10)
  }

  /** `Tile.__repr__`: "Tile[ys:ye,xs:xe]". */
  function Repr(t: Tile): string {
    "Tile[" + IntToString(t.sliceY.start) + ":" + IntToString(t.sliceY.stop) + ","
    + IntToString(t.sliceX.start) + ":" + IntToString(t.sliceX.stop) + "]"
  }

  /** Index of the first occurrence of `c` in `s`. */
  function FirstIndex(s: string, c: char): (r: Option<nat>)
    ensures r.Some? ==> r.value < |s| && s[r.value] == c && c !in s[..r.value]
    ensures r.None? ==> c !in s
  {
    if |s| == 0 then None
    else if s[0] == c then Some(0)
    else match FirstIndex(s[1..], c)
      case None => None
      case Some(k) => assert s[..k + 1] == [s[0]] + s[1..][..k]; Some(k + 1)
  }

  /** Splits `s` around the first `c`. */
  function SplitAt(s: string, c: char): Option<(string, string)> {
    match FirstIndex(s, c)
    case None => None
    case Some(k) => Some((s[..k], s[k + 1..]))
  }

  lemma {:induction false} FirstIndexAt(s: string, c: char, k: nat)
    requires k < |s| && s[k] == c && c !in s[..k]
    ensures FirstIndex(s, c) == Some(k)
  {
    if k > 0 {
      assert s[0] == s[..k][0];
      assert s[1..][..k - 1] == s[1..k] == s[..k][1..];
      FirstIndexAt(s[1..], c, k - 1);
    }
  }

  lemma SplitAtJoin(a: string, c: char, b: string)
    requires c !in a
    ensures SplitAt(a + [c] + b, c) == Some((a, b))
  {
    var s := a + [c] + b;
    assert s[..|a|] == a;
    assert s[|a| + 1..] == b;
    FirstIndexAt(s, c, |a|);
  }

  function ParseSlice(s: string): Option<Slice> {
    match SplitAt(s, ':')
    case None => None
    case Some((a, b)) =>
      match (ParseInt(a), ParseInt(b))
      case (Some(start), Some(stop)) => Some(Slice(start, stop))
      case _ => None
  }

  /** Reads a tile back from its `__repr__` text. */
  function ParseRepr(s: string): Option<Tile> {
    if |s| < 6 || s[..5] != "Tile[" || s[|s| - 1] != ']' then None
    else
      match SplitAt(s[5..|s| - 1], ',')
      case None => None
      case Some((ys, xs)) =>
        match (ParseSlice(ys), ParseSlice(xs))
        case (Some(sy), Some(sx)) => Some(Tile(sy, sx))
        case _ => None
  }

  lemma NumeralFree(i: int, c: char)
    requires !IsNumeral(c)
    ensures c !in IntToString(i)
  {
  }

  lemma ParseSliceOfRepr(sl: Slice)
    ensures ParseSlice(IntToString(sl.start) + ":" + IntToString(sl.stop)) == Some(sl)
  {
    NumeralFree(sl.start, ':');
    SplitAtJoin(IntToString(sl.start), ':', IntToString(sl.stop));
    ParseIntToString(sl.start);
    ParseIntToString(sl.stop);
  }

  /** The text between "Tile[" and "]" is the y slice and the x slice joined by a comma. */
  lemma ReprBody(t: Tile, ys: string, xs: string)
    requires ys == IntToString(t.sliceY.start) + ":" + IntToString(t.sliceY.stop)
    requires xs == IntToString(t.sliceX.start) + ":" + IntToString(t.sliceX.stop)
    ensures |Repr(t)| >= 6 && Repr(t)[..5] == "Tile[" && Repr(t)[|Repr(t)| - 1] == ']'
    ensures Repr(t)[5..|Repr(t)| - 1] == ys + [','] + xs
  {
    var s := Repr(t);
    var body := ys + [','] + xs;
    assert s == "Tile[" + body + "]";
  }

  /** The text form names the tile's four bounds: reading it back gives the tile. */
  lemma ReprRoundTrip(t: Tile)
    ensures ParseRepr(Repr(t)) == Some(t)
  {
    var ys := IntToString(t.sliceY.start) + ":" + IntToString(t.sliceY.stop);
    var xs := IntToString(t.sliceX.start) + ":" + IntToString(t.sliceX.stop);
    ReprBody(t, ys, xs);
    NumeralFree(t.sliceY.start, ',');
    NumeralFree(t.sliceY.stop, ',');
    assert ',' !in ys;
    SplitAtJoin(ys, ',', xs);
    ParseSliceOfRepr(t.sliceY);
    ParseSliceOfRepr(t.sliceX);
  }

  /** Distinct tiles print differently. */
  lemma ReprInjective(t: Tile, u: Tile)
    requires Repr(t) == Repr(u)
    ensures t == u
  {
    ReprRoundTrip(t);
    ReprRoundTrip(u);
  }
}

=== FILE: tiling.dfy ===
/** Band size estimation and the row-major sweep that cuts a band's pixel grid into tiles
    (`GEES2Downloader._estimate_band_size` and `GEES2Downloader._create_tiles`). */
module Tiling {
  import opened Wrappers
  import opened Errors
  import opened Tiles

  /** Smallest and largest sample value of the band's data type (`band_info['data_type']`). */
  datatype DataType = DataType(min: int, max: int)

  /** The band metadata the tiling reads. `height` is `dimensions[0]` and `width` is
      `dimensions[1]`: the code slices rows with the first and columns with the second. */
  datatype BandInfo = BandInfo(height: nat, width: nat, dataType: DataType)

  /** Default `excess_factor` of `_estimate_band_size`. */
  const DefaultExcessFactor: nat := 2

  /** Default `max_size` of `_create_tiles`: 32 MiB per tile request. */
  const DefaultMaxSize: nat := 33554432

  /** `max - min + 1`, the argument of `math.log2`. */
  function ValuesRange(info: BandInfo): int {
    info.dataType.max - info.dataType.min + 1
  }

  /** `_estimate_band_size`: two bytes per pixel times the excess factor. The bit depth
      `log2(range)` is computed (and fails on a non-positive range) but never used. */
  function EstimateBandSize(info: Option<BandInfo>, excessFactor: nat): (r: Result<nat, Error>)
    ensures info.None? <==> r == Failure(NotInitialized)
    ensures info.Some? && ValuesRange(info.value) < 1 <==> r == Failure(MathDomainError)
    ensures info.Some? && ValuesRange(info.value) >= 1 ==>
              r == Success(info.value.height * info.value.width * 2 * excessFactor)
    ensures r.Success? ==> r.value == info.value.height * info.value.width * 2 * excessFactor
  {
    if info.None? then Failure(NotInitialized)
    else if ValuesRange(info.value) < 1 then Failure(MathDomainError)
    else Success(info.value.height * info.value.width * 2 * excessFactor)
  }

  /** Whole bytes needed to hold one of `range` distinct sample values: the least `b`
      with 256^b >= range. */
  function BytesPerSample(range: int): (b: nat)
    decreases range
  {
    if range <= 1 then 0 else 1 + BytesPerSample((range + 255) / 256)
  }

  lemma {:induction false} BytesPerSampleAtMostTwo(range: int)
    ensures BytesPerSample(range) <= 2 <==> range <= 65536
  {
    if range > 1 {
      var next := (range + 255) / 256;
      if next > 1 {
        var next2 := (next + 255) / 256;
        assert BytesPerSample(next) == 1 + BytesPerSample(next2);
        assert next2 > 1 <==> next > 256;
        if next2 > 1 {
          assert BytesPerSample(next2) >= 1;
        } else {
          assert BytesPerSample(next2) == 0;
        }
      }
    }
  }

  /** The fixed two bytes per pixel is a safe over-estimate of the data type's real byte width
      exactly when its value range fits in 16 bits; the data-type range has no other effect. */
  lemma EstimateVersusBitDepth(info: BandInfo, excessFactor: nat)
    requires ValuesRange(info) >= 1
    requires info.height * info.width * excessFactor > 0
    ensures EstimateBandSize(Some(info), excessFactor).Success?
    ensures EstimateBandSize(Some(info), excessFactor).value
            >= info.height * info.width * BytesPerSample(ValuesRange(info)) * excessFactor
            <==> ValuesRange(info) <= 65536
  {
    var k := info.height * info.width * excessFactor;
    var b := BytesPerSample(ValuesRange(info));
    BytesPerSampleAtMostTwo(ValuesRange(info));
    assert info.height * info.width * 2 * excessFactor == k * 2;
    assert info.height * info.width * b * excessFactor == k * b;
    ScaledCompare(k, 2, b);
  }

  lemma ScaledCompare(k: int, a: int, b: int)
    requires k > 0
    ensures k * a >= k * b <==> a >= b
  {
    if a >= b {
      assert k * a - k * b == k * (a - b);
    } else {
      assert k * b - k * a == k * (b - a);
    }
  }

  /** Bands whose estimates differ only in their data-type range get the same estimate. */
  lemma EstimateIgnoresRange(a: BandInfo, b: BandInfo, excessFactor: nat)
    requires a.height == b.height && a.width == b.width
    requires ValuesRange(a) >= 1 && ValuesRange(b) >= 1
    ensures EstimateBandSize(Some(a), excessFactor) == EstimateBandSize(Some(b), excessFactor)
  {
  }

  /* ---------------------------------------------------------------- the sweep */

  /** A grid of `height` x `width` pixels cut with steps `stepY` x `stepX`. */
  datatype Plan = Plan(height: nat, width: nat, stepY: int, stepX: int)

  /** The sweep advances: the source has no clamp, so a zero step would loop forever. */
  predicate Stepping(p: Plan) {
    p.stepY >= 1 && p.stepX >= 1
  }

  /** The stop of a slice that would reach `start + step`, cut back to `limit` when it would pass it. */
  function ClipStop(start: int, step: int, limit: int): int {
    if start + step < limit then start + step else limit
  }

  /** The tile the loop body emits for loop counters `i` = y and `j` = x. */
  function TileAt(p: Plan, y: int, x: int): Tile {
    Tile(Slice(y, ClipStop(y, p.stepY, p.height)), Slice(x, ClipStop(x, p.stepX, p.width)))
  }

  /** Tiles emitted by the inner loop for row start `y`, from column `x` on. */
  function RowSweep(p: Plan, y: int, x: int): seq<Tile>
    requires Stepping(p)
    decreases p.width - x
  {
    if x < p.width then [TileAt(p, y, x)] + RowSweep(p, y, x + p.stepX) else []
  }

  lemma RowSweepUnfold(p: Plan, y: int, x: int)
    requires Stepping(p) && x < p.width
    ensures RowSweep(p, y, x) == [TileAt(p, y, x)] + RowSweep(p, y, x + p.stepX)
  {
  }

  /** Tiles emitted by the outer loop from row start `y` on. */
  function Sweep(p: Plan, y: int): seq<Tile>
    requires Stepping(p)
    decreases p.height - y
  {
    if y < p.height then RowSweep(p, y, 0) + Sweep(p, y + p.stepY) else []
  }

  /** The nested `while` loops of `_create_tiles`: the outer loop over row starts `i`. */
  method SweepLoop(p: Plan) returns (tiles: seq<Tile>)
    requires Stepping(p)
    ensures tiles == Sweep(p, 0)
    ensures IsTiling(tiles, p.height, p.width)
    ensures forall k :: 0 <= k < |tiles| ==> WellClipped(tiles[k], p)
    ensures |tiles| == CeilDiv(p.height, p.stepY) * CeilDiv(p.width, p.stepX)
  {
    var i := 0;
    tiles := [];
    while i < p.height
      invariant tiles + Sweep(p, i) == Sweep(p, 0)
      decreases p.height - i
    {
      var row := RowLoop(p, i);
      assert Sweep(p, i) == row + Sweep(p, i + p.stepY);
      tiles := tiles + row;
      i := i + p.stepY;
    }
    SweepFacts(p);
  }

  /** The inner loop of `_create_tiles`: column starts `j` from 0 across row start `i`. */
  method RowLoop(p: Plan, i: int) returns (row: seq<Tile>)
    requires Stepping(p)
    ensures row == RowSweep(p, i, 0)
  {
    var j := 0;
    row := [];
    while j < p.width
      invariant row + RowSweep(p, i, j) == RowSweep(p, i, 0)
      decreases p.width - j
    {
      var sliceY := Slice(i, if i + p.stepY < p.height then i + p.stepY else p.height);
      var sliceX := Slice(j, if j + p.stepX < p.width then j + p.stepX else p.width);
      RowSweepUnfold(p, i, j);
      assert Tile(sliceY, sliceX) == TileAt(p, i, j);
      row := row + [Tile(sliceY, sliceX)];
      j := j + p.stepX;
    }
  }

  /** Everything the sweep from row 0 promises, in one place. */
  lemma SweepFacts(p: Plan)
    requires Stepping(p)
    ensures IsTiling(Sweep(p, 0), p.height, p.width)
    ensures forall k :: 0 <= k < |Sweep(p, 0)| ==> WellClipped(Sweep(p, 0)[k], p)
    ensures |Sweep(p, 0)| == CeilDiv(p.height, p.stepY) * CeilDiv(p.width, p.stepX)
  {
    SweepIsTiling(p);
    SweepClipped(p, 0);
    SweepCount(p, 0);
  }

  /* ---------------------------------------------------------------- tiling properties */

  /** Number of tiles containing pixel (y, x): the number of times assembly writes that cell. */
  function Coverage(tiles: seq<Tile>, y: int, x: int): nat {
    if |tiles| == 0 then 0
    else (if Contains(tiles[0], y, x) then 1 else 0) + Coverage(tiles[1..], y, x)
  }

  /** Every pixel of the grid lies in exactly one tile and no tile reaches outside it. */
  ghost predicate ExactCover(tiles: seq<Tile>, height: int, width: int) {
    forall y, x :: Coverage(tiles, y, x) == if 0 <= y < height && 0 <= x < width then 1 else 0
  }

  /** `a` comes before `b` in a row-major sweep. */
  predicate RowMajorBefore(a: Tile, b: Tile) {
    a.sliceY.start < b.sliceY.start || (a.sliceY.start == b.sliceY.start && a.sliceX.start < b.sliceX.start)
  }

  predicate RowMajor(tiles: seq<Tile>) {
    forall k, l :: 0 <= k < l < |tiles| ==> RowMajorBefore(tiles[k], tiles[l])
  }

  /** The promise of the tiling: non-empty tiles inside the grid that cover it exactly once, in row-major order. */
  ghost predicate IsTiling(tiles: seq<Tile>, height: int, width: int) {
    && (forall k :: 0 <= k < |tiles| ==> WithinGrid(tiles[k], height, width))
    && ExactCover(tiles, height, width)
    && RowMajor(tiles)
  }

  /** A tile is a full `stepY` x `stepX` block except where it is cut off by the grid's last row or column. */
  predicate WellClipped(t: Tile, p: Plan) {
    && WithinGrid(t, p.height, p.width)
    && 1 <= Shape(t).0 <= p.stepY && 1 <= Shape(t).1 <= p.stepX
    && (t.sliceY.stop < p.height ==> Shape(t).0 == p.stepY)
    && (t.sliceX.stop < p.width ==> Shape(t).1 == p.stepX)
    && (Shape(t).0 < p.stepY ==> t.sliceY.stop == p.height)
    && (Shape(t).1 < p.stepX ==> t.sliceX.stop == p.width)
  }

  /** `ceil(n / d)` for a positive divisor; zero for `n <= 0`. */
  function CeilDiv(n: int, d: int): (q: nat)
    requires d >= 1
    ensures n > 0 ==> (q - 1) * d < n <= q * d
  {
    if n <= 0 then 0 else (n + d - 1) / d
  }

  lemma CeilDivStep(n: int, d: int)
    requires d >= 1 && n > 0
    ensures CeilDiv(n, d) == 1 + CeilDiv(n - d, d)
  {
    var q := CeilDiv(n, d);
    if n <= d {
      CeilUnique(n, d, q, 1);
    } else {
      var r := CeilDiv(n - d, d);
      assert (r + 1 - 1) * d == r * d;
      assert (r + 1) * d == r * d + d;
      CeilUnique(n, d, q, r + 1);
    }
  }

  lemma CeilUnique(n: int, d: int, q: int, q': int)
    requires d >= 1
    requires (q - 1) * d < n <= q * d
    requires (q' - 1) * d < n <= q' * d
    ensures q == q'
  {
    assert (q - 1 - q') * d == (q - 1) * d - q' * d;
    assert (q' - 1 - q) * d == (q' - 1) * d - q * d;
    NegativeFactor(q - 1 - q', d);
    NegativeFactor(q' - 1 - q, d);
  }

  lemma NegativeFactor(a: int, d: int)
    requires d >= 1 && a * d < 0
    ensures a < 0
  {
  }

  lemma {:induction false} CoverageAppend(a: seq<Tile>, b: seq<Tile>, y: int, x: int)
    ensures Coverage(a + b, y, x) == Coverage(a, y, x) + Coverage(b, y, x)
  {
    if |a| == 0 {
      assert a + b == b;
    } else {
      assert (a + b)[1..] == a[1..] + b;
      CoverageAppend(a[1..], b, y, x);
    }
  }

  lemma {:induction false} RowSweepCoverage(p: Plan, y: int, x: int, py: int, px: int)
    requires Stepping(p) && x >= 0
    ensures Coverage(RowSweep(p, y, x), py, px)
            == if y <= py < ClipStop(y, p.stepY, p.height) && x <= px < p.width then 1 else 0
    decreases p.width - x
  {
    if x < p.width {
      var rest := RowSweep(p, y, x + p.stepX);
      assert RowSweep(p, y, x)[1..] == rest;
      RowSweepCoverage(p, y, x + p.stepX, py, px);
    }
  }

  lemma {:induction false} SweepCoverage(p: Plan, y: int, py: int, px: int)
    requires Stepping(p) && y >= 0
    ensures Coverage(Sweep(p, y), py, px) == if y <= py < p.height && 0 <= px < p.width then 1 else 0
    decreases p.height - y
  {
    if y < p.height {
      CoverageAppend(RowSweep(p, y, 0), Sweep(p, y + p.stepY), py, px);
      RowSweepCoverage(p, y, 0, py, px);
      SweepCoverage(p, y + p.stepY, py, px);
    }
  }

  /** Each row of the sweep holds tiles with that row's y-range, strictly increasing in x. */
  lemma {:induction false} RowSweepShape(p: Plan, y: int, x: int)
    requires Stepping(p) && 0 <= y < p.height && x >= 0
    ensures forall k :: 0 <= k < |RowSweep(p, y, x)| ==>
      && RowSweep(p, y, x)[k].sliceY.start == y
      && RowSweep(p, y, x)[k].sliceX.start >= x
      && WellClipped(RowSweep(p, y, x)[k], p)
    ensures RowMajor(RowSweep(p, y, x))
    decreases p.width - x
  {
    if x < p.width {
      var row := RowSweep(p, y, x);
      var rest := RowSweep(p, y, x + p.stepX);
      assert row[1..] == rest;
      RowSweepShape(p, y, x + p.stepX);
      forall k, l | 0 <= k < l < |row|
        ensures RowMajorBefore(row[k], row[l])
      {
        if k > 0 {
          assert row[k] == rest[k - 1] && row[l] == rest[l - 1];
        } else {
          assert row[l] == rest[l - 1];
        }
      }
    }
  }

  /** Tiles of the sweep from row start `y` on are well clipped and start at or below `y`. */
  lemma {:induction false} SweepClipped(p: Plan, y: int)
    requires Stepping(p) && y >= 0
    ensures forall k :: 0 <= k < |Sweep(p, y)| ==>
      WellClipped(Sweep(p, y)[k], p) && Sweep(p, y)[k].sliceY.start >= y
    ensures RowMajor(Sweep(p, y))
    decreases p.height - y
  {
    if y < p.height {
      var row := RowSweep(p, y, 0);
      var rest := Sweep(p, y + p.stepY);
      var all := row + rest;
      RowSweepShape(p, y, 0);
      SweepClipped(p, y + p.stepY);
      forall k | 0 <= k < |all|
        ensures WellClipped(all[k], p) && all[k].sliceY.start >= y
      {
        if k >= |row| {
          assert all[k] == rest[k - |row|];
        }
      }
      forall k, l | 0 <= k < l < |all|
        ensures RowMajorBefore(all[k], all[l])
      {
        if l < |row| {
        } else if k < |row| {
          assert all[l] == rest[l - |row|];
        } else {
          assert all[k] == rest[k - |row|] && all[l] == rest[l - |row|];
        }
      }
    }
  }

  lemma {:induction false} RowSweepCount(p: Plan, y: int, x: int)
    requires Stepping(p) && x >= 0
    ensures |RowSweep(p, y, x)| == CeilDiv(p.width - x, p.stepX)
    decreases p.width - x
  {
    if x < p.width {
      RowSweepCount(p, y, x + p.stepX);
      CeilDivStep(p.width - x, p.stepX);
    }
  }

  lemma {:induction false} SweepCount(p: Plan, y: int)
    requires Stepping(p) && y >= 0
    ensures |Sweep(p, y)| == CeilDiv(p.height - y, p.stepY) * CeilDiv(p.width, p.stepX)
    decreases p.height - y
  {
    if y < p.height {
      var c := CeilDiv(p.width, p.stepX);
      var r := CeilDiv(p.height - (y + p.stepY), p.stepY);
      var row := RowSweep(p, y, 0);
      var rest := Sweep(p, y + p.stepY);
      RowSweepCount(p, y, 0);
      SweepCount(p, y + p.stepY);
      CeilDivStep(p.height - y, p.stepY);
      assert |Sweep(p, y)| == |row| + |rest| == c + r * c;
      MulSucc(r, c);
    }
  }

  lemma MulSucc(r: int, c: int)
    ensures (1 + r) * c == c + r * c
  {
  }

  /** With steps of at least one pixel the sweep tiles the grid exactly, in row-major order. */
  lemma SweepIsTiling(p: Plan)
    requires Stepping(p)
    ensures IsTiling(Sweep(p, 0), p.height, p.width)
  {
    SweepClipped(p, 0);
    forall y, x
      ensures Coverage(Sweep(p, 0), y, x) == if 0 <= y < p.height && 0 <= x < p.width then 1 else 0
    {
      SweepCoverage(p, 0, y, x);
    }
  }

  /* ---------------------------------------------------------------- _create_tiles */

  /** The estimated size `_create_tiles` uses (default excess factor). */
  function TilingEstimate(info: Option<BandInfo>): Result<nat, Error> {
    EstimateBandSize(info, DefaultExcessFactor)
  }

  /** The rescale factor, the square root of `max_size / size`, exceeds 1. For a positive size this holds
      precisely when `max_size > size`, which is how it is decided here. */
  predicate FitsWhole(size: nat, maxSize: nat) {
    maxSize > size
  }

  /** `_create_tiles` reaches its sweep loop: metadata present, a positive estimate that does not fit. */
  predicate Sweeps(info: Option<BandInfo>, maxSize: nat) {
    && TilingEstimate(info).Success?
    && TilingEstimate(info).value > 0
    && !FitsWhole(TilingEstimate(info).value, maxSize)
  }

  /** `_create_tiles`. The steps, the truncated products of the rescale factor and each dimension, are parameters; they are only
      used, and only need to be positive, when the sweep runs. */
  function CreateTiles(info: Option<BandInfo>, maxSize: nat, stepY: int, stepX: int): (r: Result<seq<Tile>, Error>)
    requires Sweeps(info, maxSize) ==> stepY >= 1 && stepX >= 1
    ensures info.None? ==> r == Failure(NotInitialized)
    ensures r.Success? <==> info.Some? && ValuesRange(info.value) >= 1 && info.value.height >= 1 && info.value.width >= 1
    ensures info.Some? && ValuesRange(info.value) >= 1 && (info.value.height == 0 || info.value.width == 0)
            ==> r == Failure(ZeroDivisionError)
    ensures r.Success? ==> IsTiling(r.value, info.value.height, info.value.width)
    ensures r.Success? && FitsWhole(4 * info.value.height * info.value.width, maxSize)
            ==> r.value == [Tile(Slice(0, info.value.height), Slice(0, info.value.width))]
    ensures r.Success? && Sweeps(info, maxSize) ==>
      && |r.value| == CeilDiv(info.value.height, stepY) * CeilDiv(info.value.width, stepX)
      && forall k :: 0 <= k < |r.value| ==> WellClipped(r.value[k], Plan(info.value.height, info.value.width, stepY, stepX))
  {
    var size :- TilingEstimate(info);
    if size == 0 then Failure(ZeroDivisionError)
    else
      var band := info.value;
      if FitsWhole(size, maxSize) then
        var whole := Tile(Slice(0, band.height), Slice(0, band.width));
        assert Coverage([whole], 0, 0) == 1;
        Success([whole])
      else
        var p := Plan(band.height, band.width, stepY, stepX);
        SweepFacts(p);
        Success(Sweep(p, 0))
  }

  /** Every created tile has a `shape` of at least one row and one column and at most the band's
      extent, so its `size` is positive and no smaller than its pixel count. */
  lemma CreatedTileShapes(info: Option<BandInfo>, maxSize: nat, stepY: int, stepX: int)
    requires Sweeps(info, maxSize) ==> stepY >= 1 && stepX >= 1
    requires CreateTiles(info, maxSize, stepY, stepX).Success?
    ensures var tiles := CreateTiles(info, maxSize, stepY, stepX).value;
      forall k :: 0 <= k < |tiles| ==>
        && 1 <= Shape(tiles[k]).0 <= info.value.height
        && 1 <= Shape(tiles[k]).1 <= info.value.width
        && 1 <= Area(tiles[k]) <= Size(tiles[k])
  {
    var tiles := CreateTiles(info, maxSize, stepY, stepX).value;
    forall k | 0 <= k < |tiles|
      ensures 1 <= Area(tiles[k]) <= Size(tiles[k])
    {
      assert WithinGrid(tiles[k], info.value.height, info.value.width);
      PositiveProduct(Shape(tiles[k]).0, Shape(tiles[k]).1);
    }
  }

  lemma PositiveProduct(a: int, b: int)
    requires a >= 1 && b >= 1
    ensures a * b >= 1
  {
  }

  /** Within one row of the sweep each tile starts where the previous one stops, on the same rows. */
  lemma {:induction false} RowSweepAbuts(p: Plan, y: int, x: int)
    requires Stepping(p)
    ensures forall k :: 0 <= k < |RowSweep(p, y, x)| - 1 ==>
      && RowSweep(p, y, x)[k + 1].sliceX.start == RowSweep(p, y, x)[k].sliceX.stop
      && RowSweep(p, y, x)[k + 1].sliceY == RowSweep(p, y, x)[k].sliceY
    decreases p.width - x
  {
    if x < p.width {
      RowSweepAbuts(p, y, x + p.stepX);
      var rest := RowSweep(p, y, x + p.stepX);
      if |rest| > 0 {
        RowSweepUnfold(p, y, x + p.stepX);
        assert rest[0] == TileAt(p, y, x + p.stepX);
      }
    }
  }
}

=== FILE: wrappers.dfy ===
/** Failure-carrying result types shared by the whole model. */
module Wrappers {

  /** A value that may be absent, as Python's `None`. */
  datatype Option<+T> = None | Some(value: T)

  /** Either a computed value or the exception the source would raise. */
  datatype Result<+T, +E> = Success(value: T) | Failure(error: E)
  {
    predicate IsFailure() {
      Failure?
    }

    function PropagateFailure<U>(): Result<U, E>
      requires Failure?
    {
      Failure(error)
    }

    function Extract(): T
      requires Success?
    {
      value
    }
  }
}

/** The conditions under which the modelled code stops with an error. */
module Errors {

  datatype Error =
    /** `_estimate_band_size` / `_create_tiles` called before band metadata was fetched (they log and return None). */
    | NotInitialized
    /** `math.log2` of a non-positive data-type range. */
    | MathDomainError
    /** `max_size / size` with an estimated size of zero. */
    | ZeroDivisionError
    /** `pts[0]` on an empty point list, or `filelist[0]` of an empty archive. */
    | IndexError
    /** An attribute read on `None`. */
    | AttributeError
    /** The downloaded bytes are not a zip archive. */
    | BadZipFile
    /** A pixel block whose shape does not match the tile it is written to. */
    | ShapeMismatch
}
